=== FILE: README.md ===
# cool_short_url core in Dafny

A model of the core of a URL-shortening service written in Go. The service stores
alias→URL mappings in SQLite. Every save also records a `url_saved` event in the same
transaction. A background event sender polls for pending events, hands each one to an
outbound sink, and marks it `done`. The model covers three parts:

- **The SQLite store** (`sqlite.dfy`, module `Sqlite`). Both tables are plain values.
  The `url` table is the sequence of its rows in rowid order. The `events` table is the
  sequence of its rows in id order. `SaveURL`, `GetURL`, `DeleteURL`, `GetNewEvent` and
  `MarkEventAsDone` are pure functions. Each takes the state before and returns a
  `Result` (`Ok(value)` or `Err(StorageError)`); the mutating ones also return the state
  after. `Valid` collects the schema's invariants:
  - aliases are unique;
  - rowids ascend and stay in the signed 64-bit range;
  - event ids are 1, 2, 3, … (AUTOINCREMENT, and no event is ever deleted).

  New url rows get SQLite's rowid: the largest rowid plus one, or 1 in an empty table.
  The `%d` rendering of the id in the event payload is in `decimal.dfy`.
- **The error sentinels and the domain event** (`storage.dfy`, `domain.dfy`).
  `StorageError` mirrors `ErrURLNotFound`, `ErrURLExists` and `ErrEventNotFound`. It has
  two more cases: `DbFailure` for any driver error, and `TxDone` for database/sql's
  ErrTxDone.
- **The event sender** (`event_sender.dfy`). `Tick` is one pass of the polling loop,
  done as one atomic step. A `Relay` is the store plus `delivered`, the log of events
  handed to the sink; the stub sender only logs, so here it appends to that log.
  `Drain` is the loop run on a quiet system until nothing is pending.
- **The response builder** (`response.dfy`). This is the JSON body the handlers render.
  `ValidationError` builds its message from a sequence of `(tag, field)` pairs.

Cross-operation store properties are in `store_properties.dfy`. Examples are save then
get, delete then get, both-or-neither, and every mapping keeping its event. The code as
written for `SaveURL`, whose return value differs from the intent, is in
`sqlite_as_written.dfy`; see Findings.

The environment is a set of parameters. Database failures are a `SaveFault` for
`SaveURL` and a `bool` for the other operations. Which case the sender's `select` takes
and the fetch/mark failures are a `Signal` for each tick.

## Model

| member | source | states |
|---|---|---|
| `Sqlite.SaveURL` | internal/storage/sqlite/sqlite.go:60-101 | Keeps the store valid. On any error both tables are unchanged (rollback), and the error is either `URLExists` or a database failure. `URLExists` is returned exactly when the alias is present and no failure came before SQLite's UNIQUE check. Those earlier failures are Begin, the insert's Prepare, and an insert error other than the UNIQUE violation (SQLITE_BUSY, an I/O error); each wins over a taken alias and is reported as a database failure. Success happens exactly when nothing fails, the alias is new and ids remain. On success the id is in 1..2^63-1 and larger than every existing rowid, the alias finds `(id, alias, url)`, and every other alias finds what it found before. Exactly one event is appended: the next id, type `url_saved`, the payload for that id/url/alias, status `new`. |
| `Sqlite.InsertNew` | internal/storage/sqlite/sqlite.go:86-100 | Once the insert has passed the UNIQUE check: the result is either a database failure with both tables unchanged, or success exactly when nothing fails and ids remain. On success the state is the old one with the new row and its `url_saved` event appended, as `SavedAs` spells out. |
| `Sqlite.Committed` | internal/storage/sqlite/sqlite.go:81-100 | The committed state is valid. It finds the new row under its alias at the next rowid, leaves other aliases unchanged, and appends the single `url_saved` event. |
| `Sqlite.Payload` | internal/storage/sqlite/sqlite.go:93 | For a non-negative id, the payload opens with `{"id": "`, then the id in decimal, then a closing quote. |
| `Sqlite.PayloadsDistinct` | internal/storage/sqlite/sqlite.go:93 | Payloads for different ids differ, whatever their urls and aliases. |
| `Decimal.Format` | internal/storage/sqlite/sqlite.go:93 | `%d` of a non-negative id: at least one character, digits only, and a leading `0` exactly for zero. `Decimal.ParseFormat` reads it back. |
| `Decimal.FormatInt` | internal/storage/sqlite/sqlite.go:93 | `%d` of any int64: a leading `-` exactly for negative numbers, and the digits after any sign read back as the magnitude. |
| `Sqlite.PayloadIdRoundTrip` | internal/storage/sqlite/sqlite.go:93 | The id can be read back out of the payload `{"id": "<id>", "url": …, "alias": …}` for any url and alias. |
| `Sqlite.GetURL` | internal/storage/sqlite/sqlite.go:117-132 | Every error is `URLNotFound` or a database failure. `URLNotFound` comes back exactly when the query succeeds and the alias is absent. A url is returned exactly when the alias is present, and it is the url of that alias's row. The function returns no new state, so the store cannot change. |
| `Sqlite.Lookup` | internal/storage/sqlite/sqlite.go:119-124 | `WHERE alias=?` finds a row exactly when some row carries the alias, and the row it finds carries it. |
| `Sqlite.LookupFindsTheRow` | internal/storage/sqlite/sqlite.go:38 | Under the UNIQUE constraint, the row found for an alias is the one row with that alias. |
| `Sqlite.DeleteURL` | internal/storage/sqlite/sqlite.go:134-149 | Keeps the store valid. Every error is `URLNotFound` or a database failure. Zero affected rows gives `URLNotFound` exactly when the alias is absent, and then nothing changes. On success the alias is gone, exactly one row was removed, other aliases find what they found before, and the events are untouched. |
| `Sqlite.WithoutAlias` | internal/storage/sqlite/sqlite.go:136-144 | `DELETE … WHERE alias=?` keeps exactly the rows with other aliases. Zero rows are affected exactly when no row carries the alias. |
| `Sqlite.WithoutAliasKeepsInvariants` | internal/storage/sqlite/sqlite.go:36-39 | Deleting rows keeps rowids ascending and in range, and aliases unique. |
| `Sqlite.DeleteRemovesOneRow` | internal/storage/sqlite/sqlite.go:144-147 | Because aliases are unique, a delete of a present alias affects exactly one row. |
| `Sqlite.GetNewEvent` | internal/storage/sqlite/sqlite.go:151-169 | Every error is `EventNotFound` or a database failure. `EventNotFound` comes back exactly when the query succeeds and no event is `new`. Otherwise the result is the id/type/payload of some row whose status is `new`. The store is not changed. |
| `Sqlite.ToDomain` | internal/storage/sqlite/sqlite.go:164-168 | The returned event carries the row's id, type and payload. Only the status column is dropped, so the row is recovered from the event plus its status. |
| `Sqlite.FirstNew` | internal/storage/sqlite/sqlite.go:155 | `status='new' LIMIT 1` finds nothing exactly when no row is `new`, and what it finds is a `new` row. |
| `Sqlite.CountNew` | internal/storage/sqlite/sqlite.go:155 | The number of pending events is zero exactly when no event is `new`. |
| `Sqlite.MarkEventAsDone` | internal/storage/sqlite/sqlite.go:171-184 | Succeeds exactly when the database does not fail, and an unknown id is no error. The only error is a database failure, and it leaves the store unchanged. The url table never changes. Each event keeps its id, type and payload, and only events with that id become `done`. The pending ids lose exactly that id. With valid ids the pending count drops by one exactly when the id was pending. |
| `Sqlite.MarkDone` | internal/storage/sqlite/sqlite.go:174-178 | The UPDATE sets status `done` on the rows with that id and leaves every other row as it was. |
| `Sqlite.CountNewMarkDone` | internal/storage/sqlite/sqlite.go:174-178 | With distinct ids, marking a pending id lowers the pending count by exactly one, and marking any other id leaves it unchanged. |
| `Sqlite.ValidEventIdsDistinct` | internal/storage/sqlite/sqlite.go:43 | AUTOINCREMENT numbering never gives two events the same id. `MarkEventAsDone` relies on this for its pending-count drop. |
| `Sqlite.EmptyIsValid` | internal/storage/sqlite/sqlite.go:36-47 | The freshly created, empty tables satisfy the schema invariants. |
| `StoreProperties.SaveThenGet` | internal/storage/sqlite/sqlite.go:60-131 | After a successful save, a lookup of the alias returns exactly the saved url (or the lookup's own database error). |
| `StoreProperties.SaveTwiceRejected` | internal/storage/sqlite/sqlite.go:81-85 | Saving an alias a second time gives `URLExists` and leaves both tables unchanged. The first url is still returned. |
| `StoreProperties.SaveDistinctAliases` | internal/storage/sqlite/sqlite.go:60-101 | Two saves under different new aliases both succeed, get increasing ids, and each alias finds its own url. |
| `StoreProperties.SaveIsAtomic` | internal/storage/sqlite/sqlite.go:62-100 | A save adds its mapping exactly when it adds an event, and it adds at most one event. |
| `StoreProperties.SaveKeepsPaired` | internal/storage/sqlite/sqlite.go:93-100 | If every mapping has its `url_saved` event before a save, the same holds after it. |
| `StoreProperties.DeleteKeepsPaired` | internal/storage/sqlite/sqlite.go:134-149 | Deleting a mapping keeps every remaining mapping paired with its event. |
| `StoreProperties.MarkKeepsPaired` | internal/storage/sqlite/sqlite.go:171-184 | Marking an event keeps every mapping paired with its event. |
| `StoreProperties.DeleteThenGet` | internal/storage/sqlite/sqlite.go:134-149 | After a successful delete, a lookup and a second delete of that alias both report `URLNotFound`, and the second delete changes nothing. |
| `StoreProperties.MarkIdempotent` | internal/storage/sqlite/sqlite.go:174-178 | Marking the same id twice leaves the store as marking it once. |
| `StoreProperties.MarkUnknownIsNoop` | internal/storage/sqlite/sqlite.go:174-183 | Marking an id no event carries succeeds and changes nothing. |
| `StoreProperties.DoneStaysDone` | internal/storage/sqlite/sqlite.go:60-184 | No save, delete or mark moves a `done` event or changes it, so a `done` event never becomes `new` again. |
| `EventSender.Tick` | internal/services/event-sender/event-sender.go:31-54 | Keeps the store valid. It stops exactly when the `select` takes the `ctx.Done()` case. A tick is sent exactly what `GetNewEvent` returns. It is idle exactly when the fetch fails or nothing is pending, and then nothing changes. Otherwise it appends to the delivered log one event that was `new`. If the mark fails, the store is unchanged and the event is still pending. If the mark succeeds, the store is exactly what `MarkEventAsDone` leaves, so every id, type and payload is kept. That event is no longer pending, every other id keeps its status, the url table is unchanged, and the pending count drops by one. |
| `EventSender.AtMostOneDispatch` | internal/services/event-sender/event-sender.go:38-48 | A tick adds at most one event to the delivered log and never changes what was already delivered. |
| `EventSender.DoneNeverDispatched` | internal/services/event-sender/event-sender.go:38-48 | No tick dispatches an event whose row is `done`. |
| `EventSender.RedeliveryAfterFailedMark` | internal/services/event-sender/event-sender.go:48-53 | After a tick whose mark fails, the next healthy tick sends the same event again and marks it `done`. The sink has then seen it twice (at-least-once delivery). |
| `EventSender.Drain` | internal/services/event-sender/event-sender.go:30-55 | With no cancellation, no concurrent saves and no failures, N pending events take exactly N ticks, with the pending count as the measure. The sink receives exactly N events, no id twice, and exactly the ids that were pending. Afterwards nothing is pending and the url table is unchanged. |
| `EventSender.SaveThenTick` | internal/services/event-sender/event-sender.go:38-53 | Saving `https://example.com` as `abc` into an empty store returns id 1, the lookup returns the url, and there is one pending event whose payload names id 1. One tick sends exactly that event and leaves it `done`. |
| `SqliteAsWritten.SaveURLAsWritten` | internal/storage/sqlite/sqlite.go:60-102 | The code as written leaves the store exactly as the intended `SaveURL` does. After a successful Begin, though, every return carries ErrTxDone. A non-UNIQUE insert error panics whether or not the alias is taken. In the model, a url table whose largest rowid is 2^63-1 panics too. |
| `SqliteAsWritten.Body` | internal/storage/sqlite/sqlite.go:77-101 | Where the function body leaves off. It leaves the store as the intended `SaveURL` does. It returns a nil error exactly when the intended save succeeds, with the same id, and only after the transaction is finished. It returns `ErrURLExists` exactly when the intended save reports it. |
| `SqliteAsWritten.Deferred` | internal/storage/sqlite/sqlite.go:67-75 | The deferred closure returns nil only for a nil error on a transaction that is still open. Every other result is ErrTxDone. |
| `SqliteAsWritten.SuccessReportsTxDone` | internal/storage/sqlite/sqlite.go:67-75 | A save that commits id 1 returns ErrTxDone to its caller. |
| `SqliteAsWritten.DuplicateReportsTxDone` | internal/storage/sqlite/sqlite.go:67-85 | A duplicate alias returns ErrTxDone instead of `URLExists`. |
| `SqliteAsWritten.OtherInsertErrorPanics` | internal/storage/sqlite/sqlite.go:81-87 | A url insert that fails other than on the UNIQUE constraint panics, on an empty store and with the alias already taken. The intended result is a database error. |
| `Response.OK` | internal/http-server/model/response/response.go:36-40 | Status `"OK"` and an empty error. |
| `Response.Error` | internal/http-server/model/response/response.go:42-47 | Status `"Error"` and the error exactly the given message. |
| `Response.ValidationError` | internal/http-server/model/response/response.go:20-34 | Status `"Error"`. The message always begins with `"invalid body"`, and with no field errors it is exactly `"invalid body"`. |
| `Response.Segment` | internal/http-server/model/response/response.go:24-31 | Every sentence starts with `field ` and the field name, and goes on after it. |
| `Response.Join` | internal/http-server/model/response/response.go:33 | `strings.Join`: no parts give the empty string, and otherwise the result begins with the first part. `Response.SplitJoin` proves that splitting on the separator gives the parts back. |
| `Response.Segments` | internal/http-server/model/response/response.go:23-32 | One sentence per field error, in input order. |
| `Response.ValidationMessageParts` | internal/http-server/model/response/response.go:21-33 | With comma-free field names, splitting the message on `,` gives back `"invalid body"` followed by the errors' sentences in input order. The message holds exactly one comma per error. |
| `Response.SegmentByTag` | internal/http-server/model/response/response.go:24-31 | `required` gives "field F is a required field", `url` gives "field F is not in URL format", and any other tag gives "field F is not valid". |
| `Response.SingleErrorMessage` | internal/http-server/model/response/response.go:21-33 | For a single field error, the message is `"invalid body"`, then one comma, then that error's sentence. |
| `Response.InvalidUrlMessage` | tests/short_url_test.go:51-56 | A malformed `URL` field yields exactly `"invalid body,field URL is not in URL format"`. |

## Left out

- Database I/O and schema creation. The model starts from `Sqlite.Empty`: the two empty tables of the intended schema, not what `sqlite.New` creates. As written, `New` hands a multi-statement DDL string to `db.Prepare`, which compiles only the first statement, so only `url` would be created. The `events` DDL also spells `DEFAULT` as `DEAFULT` after `NOT NULL`, which SQLite would reject if it ever parsed it. Neither defect is modelled, and the model gives new events the intended default status, `new`.
- `created_at` timestamps. They are set by the database clock and nothing in the core reads them.
- Sqlite.SaveURL: when the largest rowid is already 2^63-1, SQLite tries random unused rowids; the model reports a database failure instead. No reachable store comes near that bound.
- Sqlite.SaveURL: a new row takes the largest rowid plus one, so after the row with the largest rowid is deleted its rowid is reused. Two `url_saved` events can then carry the same payload, for example after saving, deleting and re-saving the same url and alias. `PayloadsDistinct` speaks only of different ids. Because url and alias are inserted verbatim, different mappings with the same id can also share a payload.
- Sqlite.SaveURL: driver failures are grouped by where they happen (`SaveFault`), not by which error the driver returns. Every failure after Begin rolls back to the state before the save. A commit that fails inside the driver is also treated as a rollback.
- SqliteAsWritten.SaveURLAsWritten: when the largest rowid is already 2^63-1, SQLite tries random unused rowids and usually succeeds. The model sends that case down the nil-`res` path, a panic, rather than modelling the random choice.
- Sqlite.GetNewEvent: `LIMIT 1` without `ORDER BY` leaves the choice of row to the engine. The model picks the lowest id, and no contract or lemma depends on that choice.
- SqliteAsWritten.SaveURLAsWritten: the model keeps only which error comes back (ErrTxDone, a driver error, or a panic), not the `op:` prefixes that `fmt.Errorf` adds.
- Concurrency: the goroutine, the ticker period, Go's random choice between a done context and a pending tick in the `select` (so a done context can still run one more tick; `Signal.cancelled` records which case was taken), the race between the sender and the request handlers, and the `reserved_to` lease noted for several senders. One tick is one atomic step.
- Log output. Fetch-not-found and fetch-failure give the same `Idle` tick, because both `continue`. The `err == storage.ErrEventNotFound` test never matches a wrapped error, so it changes only which log level is used.
- The outbound sink. `stubSendEventMessage` only logs; here it is an append to `delivered`.
- The payload is built with `%s`, so a url or alias containing `"` gives malformed JSON. The model inserts the strings verbatim, as the code does, and reads back only the id.
- HTTP handlers (`save.go`, `redirect.go`) and their tests are glue around the core. They have two defects that are not modelled: `save.go:67` saves `req.Alias` instead of the generated alias, and `save.go:73-76` keeps going after the error response.
- Configuration and wiring (`cmd/main.go`, `internal/config/config.go`). `main` never starts the event sender.
- The random alias generator and the validator's internals. A validation error is reduced to its tag (`ActualTag()`) and its field name.

## Findings

| source | as written | input that shows it | evidently intended | confidence | as-written member | corrected member |
|---|---|---|---|---|---|---|
| internal/storage/sqlite/sqlite.go:67-75 | The deferred closure calls `tx.Commit()` after the transaction has already been committed or rolled back, so it fails with ErrTxDone and overwrites the returned error. | `SaveURL("https://example.com", "abc")` on an empty store commits row 1 and its event, yet returns `(1, ErrTxDone)`. | Return `(1, nil)`. | high; not executed | `SqliteAsWritten.SuccessReportsTxDone` | `Sqlite.SaveURL` |
| internal/storage/sqlite/sqlite.go:67-85 | The same closure replaces the wrapped `ErrURLExists` with ErrTxDone, so callers cannot tell a taken alias from a failure. | `SaveURL(u, "abc")` when `abc` is already stored returns `(0, ErrTxDone)`. | Return `ErrURLExists`. | high; not executed | `SqliteAsWritten.DuplicateReportsTxDone` | `Sqlite.SaveURL` |
| internal/storage/sqlite/sqlite.go:81-87 | An insert error that is not the UNIQUE violation falls through to `res.LastInsertId()` on a nil `res`. | The url insert fails with any other driver error (a busy or read-only database, say), whether or not the alias is taken, and the call panics. | Return a wrapped database error after rolling back. | high; not executed | `SqliteAsWritten.OtherInsertErrorPanics` | `Sqlite.SaveURL` |

=== FILE: decimal.dfy ===
/** Decimal rendering of non-negative integers, as `fmt`'s `%d` verb prints
    them, and its inverse. */
module Decimal {

  predicate IsDigit(c: char) {
    '0' <= c <= '9'
  }

  predicate AllDigits(s: string) {
    forall i :: 0 <= i < |s| ==> IsDigit(s[i])
  }

  function DigitChar(d: nat): (c: char)
    requires d < 10
    ensures IsDigit(c)
    ensures c as int - '0' as int == d
  {
    "0123456789"[d]
  }

  function DigitValue(c: char): (d: nat)
    requires IsDigit(c)
    ensures d < 10
  {
    c as int - '0' as int
  }

  /** The shortest decimal spelling of `n`: digits only, no sign, and no
      leading zero unless `n` itself is zero. */
  function Format(n: nat): (s: string)
    ensures 1 <= |s|
    ensures AllDigits(s)
    ensures s[0] == '0' <==> n == 0
    decreases n
  {
    if n < 10 then [DigitChar(n)] else Format(n / 10) + [DigitChar(n % 10)]
  }

  /** A signed integer: a minus sign before the digits of its magnitude.  The
      sign is there exactly for negative numbers, and the digits after it read
      back as the magnitude. */
  function FormatInt(n: int): (s: string)
    ensures 1 <= |s| && (s[0] == '-' <==> n < 0)
    ensures n >= 0 ==> AllDigits(s) && Parse(s) == n
    ensures n < 0 ==> AllDigits(s[1..]) && Parse(s[1..]) == -n
  {
    var m := if n < 0 then -n else n;
    ParseFormat(m);
    if n < 0 then
      assert ("-" + Format(m))[1..] == Format(m);
      "-" + Format(m)
    else Format(n)
  }

  /** Reads a run of decimal digits back as a number. */
  function Parse(s: string): nat
    requires AllDigits(s)
  {
    if |s| == 0 then 0 else 10 * Parse(s[..|s| - 1]) + DigitValue(s[|s| - 1])
  }

  /** `Parse` inverts `Format`, so distinct numbers print differently. */
  lemma {:induction false} ParseFormat(n: nat)
    ensures Parse(Format(n)) == n
    decreases n
  {
    var s := Format(n);
    if n >= 10 {
      ParseFormat(n / 10);
      assert s[..|s| - 1] == Format(n / 10);
    }
  }

  /** Length of the longest prefix of `s` made of digits. */
  function DigitRun(s: string): (k: nat)
    ensures k <= |s|
    ensures AllDigits(s[..k])
    ensures k < |s| ==> !IsDigit(s[k])
  {
    if |s| == 0 || !IsDigit(s[0]) then 0
    else
      var k := 1 + DigitRun(s[1..]);
      assert s[..k] == [s[0]] + s[1..][..k - 1];
      k
  }

  /** A digit string followed by a non-digit is exactly the digit run. */
  lemma {:induction false} DigitRunOfDigitsThen(d: string, t: string)
    requires AllDigits(d)
    requires 0 < |t| && !IsDigit(t[0])
    ensures DigitRun(d + t) == |d|
    decreases |d|
  {
    if |d| > 0 {
      assert (d + t)[1..] == d[1..] + t;
      DigitRunOfDigitsThen(d[1..], t);
    } else {
      assert d + t == t;
    }
  }
}

=== FILE: domain.dfy ===
/** The domain event handed from the store to the event sender
    (internal/http-server/model/domain/model.go). */
module Domain {

  datatype Event = Event(id: int, eventType: string, payload: string)
}

=== FILE: event_sender.dfy ===
/** One iteration of the event sender's polling loop
    (internal/services/event-sender/event-sender.go) as an atomic step over the
    store, plus the log of events handed to the outbound sink.  The stub
    sender only writes a log line; here it appends the event to `delivered`. */
module EventSender {
  import opened Storage
  import opened Sqlite
  import Domain

  /** What the environment decides for one tick: whether the `select` takes
      the `ctx.Done()` case (when the context is done and a tick is also
      pending, Go picks either case at random, so a done context does not by
      itself stop the loop), and whether the fetch and the mark fail at the
      database level. */
  datatype Signal = Signal(cancelled: bool, fetchFails: bool, markFails: bool)

  /** No cancellation and a healthy database. */
  const Healthy: Signal := Signal(false, false, false)

  datatype Outcome =
    | Stopped                          // the select took `ctx.Done()`: the loop returns
    | Idle                             // nothing pending, or the fetch failed
    | Sent(event: Domain.Event)        // dispatched, then marked done
    | SentUnmarked(event: Domain.Event)  // dispatched, but marking it failed

  datatype Relay = Relay(store: State, delivered: seq<Domain.Event>)

  datatype TickResult = TickResult(outcome: Outcome, relay: Relay)

  /** One pass through the loop body, from the `select` on the context to the
      `continue` after MarkEventAsDone. */
  function Tick(r: Relay, sig: Signal): (t: TickResult)
    ensures Valid(r.store) ==> Valid(t.relay.store)
    ensures t.outcome.Stopped? <==> sig.cancelled
    ensures t.outcome.Idle? <==> !sig.cancelled && (sig.fetchFails || !HasNew(r.store.events))
    ensures t.outcome.Stopped? || t.outcome.Idle? ==> t.relay == r
    ensures t.outcome.Sent? || t.outcome.SentUnmarked? ==>
      && GetNewEvent(r.store, false) == Ok(t.outcome.event)
      && t.relay.delivered == r.delivered + [t.outcome.event]
      && IsNewEvent(r.store.events, t.outcome.event)
    ensures t.outcome.SentUnmarked? <==>
      !sig.cancelled && !sig.fetchFails && HasNew(r.store.events) && sig.markFails
    ensures t.outcome.SentUnmarked? ==>
      t.relay.store == r.store && IsNewEvent(t.relay.store.events, t.outcome.event)
    ensures t.outcome.Sent? ==>
      && t.relay.store == MarkEventAsDone(r.store, t.outcome.event.id, false).state
      && t.relay.store.urls == r.store.urls
      && !IsNewId(t.relay.store.events, t.outcome.event.id)
      && (forall k :: k != t.outcome.event.id ==>
            (IsNewId(t.relay.store.events, k) <==> IsNewId(r.store.events, k)))
      && (Valid(r.store) ==> CountNew(t.relay.store.events) == CountNew(r.store.events) - 1)
  {
    if sig.cancelled then TickResult(Stopped, r)
    else match GetNewEvent(r.store, sig.fetchFails)
      // ErrEventNotFound and any other fetch error both `continue`; only the
      // log level differs.
      case Err(_) => TickResult(Idle, r)
      case Ok(ev) =>
        var delivered := r.delivered + [ev];
        var m := MarkEventAsDone(r.store, ev.id, sig.markFails);
        if m.result.Err? then TickResult(SentUnmarked(ev), Relay(r.store, delivered))
        else TickResult(Sent(ev), Relay(m.state, delivered))
  }

  /** A tick hands at most one event to the sink and never rewrites what was
      already handed over. */
  lemma AtMostOneDispatch(r: Relay, sig: Signal)
    requires Valid(r.store)
    ensures var d := Tick(r, sig).relay.delivered;
      |r.delivered| <= |d| <= |r.delivered| + 1 && d[..|r.delivered|] == r.delivered
  {
  }

  /** An event whose row is 'done' is never dispatched. */
  lemma DoneNeverDispatched(r: Relay, sig: Signal, i: nat)
    requires Valid(r.store)
    requires i < |r.store.events| && r.store.events[i].status == Done
    ensures var t := Tick(r, sig);
      |t.relay.delivered| == |r.delivered| || t.relay.delivered[|r.delivered|].id != r.store.events[i].id
  {
    var t := Tick(r, sig);
    if |t.relay.delivered| != |r.delivered| {
      var ev := t.relay.delivered[|r.delivered|];
      assert ev == t.outcome.event && IsNewEvent(r.store.events, ev);
      var j :| 0 <= j < |r.store.events| && r.store.events[j].status == New && ToDomain(r.store.events[j]) == ev;
      assert r.store.events[j].id == j + 1;
    }
  }

  /** At-least-once delivery: when marking fails the event stays pending and
      the next healthy tick sends the same event again and marks it, so the
      sink has seen it twice. */
  lemma RedeliveryAfterFailedMark(r: Relay)
    requires Valid(r.store) && HasNew(r.store.events)
    ensures var t1 := Tick(r, Signal(false, false, true));
      var t2 := Tick(t1.relay, Healthy);
      && t1.outcome.SentUnmarked?
      && t2.outcome == Sent(t1.outcome.event)
      && t2.relay.delivered == r.delivered + [t1.outcome.event, t1.outcome.event]
      && !IsNewId(t2.relay.store.events, t1.outcome.event.id)
  {
    var t1 := Tick(r, Signal(false, false, true));
    var ev := t1.outcome.event;
    assert r.delivered + [ev] + [ev] == r.delivered + [ev, ev];
  }

  predicate DistinctIds(evs: seq<Domain.Event>) {
    forall i, j :: 0 <= i < j < |evs| ==> evs[i].id != evs[j].id
  }

  predicate HasId(evs: seq<Domain.Event>, k: int) {
    exists i :: 0 <= i < |evs| && evs[i].id == k
  }

  /** The sender's loop on a quiet system (no cancellation, no concurrent
      saves, no database failures), run until nothing is pending.  It takes
      exactly as many ticks as there were pending events, the new-event count
      being the measure; the sink receives exactly one event per tick, no id
      twice, and the ids it receives are exactly those that were pending. */
  method Drain(r: Relay) returns (r': Relay, sent: seq<Domain.Event>, ticks: nat)
    requires Valid(r.store)
    ensures Valid(r'.store)
    ensures !HasNew(r'.store.events)
    ensures ticks == CountNew(r.store.events) == |sent|
    ensures r'.delivered == r.delivered + sent
    ensures r'.store.urls == r.store.urls
    ensures DistinctIds(sent)
    ensures forall k :: HasId(sent, k) <==> IsNewId(r.store.events, k)
  {
    r', sent, ticks := r, [], 0;
    while HasNew(r'.store.events)
      invariant Valid(r'.store)
      invariant ticks + CountNew(r'.store.events) == CountNew(r.store.events)
      invariant |sent| == ticks
      invariant r'.delivered == r.delivered + sent
      invariant r'.store.urls == r.store.urls
      invariant DistinctIds(sent)
      invariant forall k :: IsNewId(r.store.events, k) <==> HasId(sent, k) || IsNewId(r'.store.events, k)
      invariant forall k :: HasId(sent, k) ==> !IsNewId(r'.store.events, k)
      decreases CountNew(r'.store.events)
    {
      var t := Tick(r', Healthy);
      var ev := t.outcome.event;
      SentStep(r.delivered, sent, ev);
      r', sent, ticks := t.relay, sent + [ev], ticks + 1;
    }
  }

  /** Appending one event to a sent list. */
  lemma SentStep(before: seq<Domain.Event>, sent: seq<Domain.Event>, ev: Domain.Event)
    ensures before + sent + [ev] == before + (sent + [ev])
    ensures forall k :: HasId(sent + [ev], k) <==> HasId(sent, k) || k == ev.id
    ensures DistinctIds(sent) && !HasId(sent, ev.id) ==> DistinctIds(sent + [ev])
  {
    var s := sent + [ev];
    forall k ensures HasId(s, k) <==> HasId(sent, k) || k == ev.id {
      if HasId(sent, k) {
        var i :| 0 <= i < |sent| && sent[i].id == k;
        assert s[i] == sent[i];
      }
      if k == ev.id {
        assert s[|sent|] == ev;
      }
    }
  }

  /** End to end: saving "https://example.com" under "abc" into an empty store
      returns id 1 and queues one pending `url_saved` event naming id 1; one
      healthy tick sends exactly that event and leaves it 'done'. */
  lemma SaveThenTick()
    ensures var o := SaveURL(Empty, "https://example.com", "abc", NoFault);
      && o.result == Ok(1)
      && GetURL(o.state, "abc", false) == Ok("https://example.com")
      && o.state.events == [EventRow(1, UrlSavedType, Payload(1, "https://example.com", "abc"), New)]
      && PayloadId(o.state.events[0].payload) == Some(1)
      && var t := Tick(Relay(o.state, []), Healthy);
         && t.outcome == Sent(Domain.Event(1, UrlSavedType, Payload(1, "https://example.com", "abc")))
         && t.relay.store.events[0].status == Done
  {
    var row := UrlRow(1, "abc", "https://example.com");
    var ev := EventRow(1, UrlSavedType, Payload(1, "https://example.com", "abc"), New);
    var o := SaveURL(Empty, "https://example.com", "abc", NoFault);
    assert o == Step(Ok(1), State([row], [ev]));
    assert Lookup([row], "abc") == Some(row);
    PayloadIdRoundTrip(1, "https://example.com", "abc");
  }
}

=== FILE: response.dfy ===
/** The JSON response body the HTTP handlers render
    (internal/http-server/model/response/response.go), and the validation
    message built from a request's field errors. */
module Response {

  const StatusOK: string := "OK"
  const StatusError: string := "Error"

  /** `{"status": ..., "error": ...}`; an empty error is omitted from the JSON. */
  datatype Response = Response(status: string, error: string)

  /** One validator error: the tag that failed (`ActualTag()`) and the field name. */
  datatype FieldError = FieldError(tag: string, field: string)

  function OK(): (r: Response)
    ensures r.status == "OK" && r.error == ""
  {
    Response(StatusOK, "")
  }

  function Error(msg: string): (r: Response)
    ensures r.status == "Error" && r.error == msg
  {
    Response(StatusError, msg)
  }

  /** The sentence for one field error, chosen by its tag. */
  function Segment(e: FieldError): (s: string)
    ensures "field " + e.field < s
  {
    if e.tag == "required" then "field " + e.field + " is a required field"
    else if e.tag == "url" then "field " + e.field + " is not in URL format"
    else "field " + e.field + " is not valid"
  }

  function Segments(errs: seq<FieldError>): (segs: seq<string>)
    ensures |segs| == |errs|
    ensures forall i :: 0 <= i < |errs| ==> segs[i] == Segment(errs[i])
  {
    if |errs| == 0 then [] else [Segment(errs[0])] + Segments(errs[1..])
  }

  /** `strings.Join`: empty for no parts, and otherwise the first part is
      where the result begins. */
  function Join(parts: seq<string>, sep: string): (r: string)
    ensures |parts| == 0 ==> r == ""
    ensures |parts| > 0 ==> parts[0] <= r
  {
    if |parts| == 0 then ""
    else if |parts| == 1 then parts[0]
    else parts[0] + sep + Join(parts[1..], sep)
  }

  const InvalidBody: string := "invalid body"

  /** "invalid body" followed by one segment per error, in input order, all
      joined with commas. */
  function ValidationError(errs: seq<FieldError>): (r: Response)
    ensures r.status == "Error"
    ensures |r.error| >= |InvalidBody| && r.error[..|InvalidBody|] == InvalidBody
    ensures errs == [] ==> r.error == InvalidBody
  {
    var msgs := [InvalidBody] + Segments(errs);
    Error(Join(msgs, ","))
  }

  // ---------------------------------------------------------------------------
  // Reading the message back

  /** `strings.Split` on a single character. */
  function Split(s: string, c: char): (parts: seq<string>)
    ensures |parts| >= 1
  {
    if |s| == 0 then [""]
    else
      var rest := Split(s[1..], c);
      if s[0] == c then [""] + rest else [[s[0]] + rest[0]] + rest[1..]
  }

  lemma {:induction false} SplitNoSeparator(a: string, c: char)
    requires c !in a
    ensures Split(a, c) == [a]
    decreases |a|
  {
    if |a| > 0 {
      SplitNoSeparator(a[1..], c);
      assert [a[0]] + a[1..] == a;
    }
  }

  lemma {:induction false} SplitAtSeparator(a: string, c: char, b: string)
    requires c !in a
    ensures Split(a + [c] + b, c) == [a] + Split(b, c)
    decreases |a|
  {
    var s := a + [c] + b;
    if |a| == 0 {
      assert s == [c] + b;
      assert s[1..] == b;
    } else {
      assert s[1..] == a[1..] + [c] + b;
      SplitAtSeparator(a[1..], c, b);
      assert [a[0]] + a[1..] == a;
    }
  }

  /** Splitting a join on its separator gives the parts back, provided no part
      contains the separator. */
  lemma {:induction false} SplitJoin(parts: seq<string>, c: char)
    requires |parts| >= 1
    requires forall i :: 0 <= i < |parts| ==> c !in parts[i]
    ensures Split(Join(parts, [c]), c) == parts
    decreases |parts|
  {
    if |parts| == 1 {
      SplitNoSeparator(parts[0], c);
    } else {
      SplitJoin(parts[1..], c);
      SplitAtSeparator(parts[0], c, Join(parts[1..], [c]));
      assert parts == [parts[0]] + parts[1..];
    }
  }

  /** Count of the character `c` in `s`. */
  function Occurrences(s: string, c: char): nat {
    if |s| == 0 then 0 else (if s[0] == c then 1 else 0) + Occurrences(s[1..], c)
  }

  lemma {:induction false} OccurrencesAppend(a: string, b: string, c: char)
    ensures Occurrences(a + b, c) == Occurrences(a, c) + Occurrences(b, c)
    decreases |a|
  {
    if |a| > 0 {
      assert (a + b)[1..] == a[1..] + b;
      OccurrencesAppend(a[1..], b, c);
    } else {
      assert a + b == b;
    }
  }

  lemma {:induction false} OccurrencesAbsent(a: string, c: char)
    requires c !in a
    ensures Occurrences(a, c) == 0
    decreases |a|
  {
    if |a| > 0 {
      OccurrencesAbsent(a[1..], c);
    }
  }

  /** A join of n comma-free parts contains n - 1 commas. */
  lemma {:induction false} JoinSeparators(parts: seq<string>, c: char)
    requires |parts| >= 1
    requires forall i :: 0 <= i < |parts| ==> c !in parts[i]
    ensures Occurrences(Join(parts, [c]), c) == |parts| - 1
    decreases |parts|
  {
    OccurrencesAbsent(parts[0], c);
    if |parts| > 1 {
      JoinSeparators(parts[1..], c);
      OccurrencesAppend(parts[0] + [c], Join(parts[1..], [c]), c);
      OccurrencesAppend(parts[0], [c], c);
    }
  }

  lemma InvalidBodyHasNoComma()
    ensures ',' !in InvalidBody
  {
  }

  lemma SegmentHasNoComma(e: FieldError)
    requires ',' !in e.field
    ensures ',' !in Segment(e)
  {
  }

  /** With comma-free field names (Go identifiers), the message splits on ','
      back into "invalid body" and the errors' sentences in input order, and
      so holds exactly one comma per error. */
  lemma ValidationMessageParts(errs: seq<FieldError>)
    requires forall i :: 0 <= i < |errs| ==> ',' !in errs[i].field
    ensures Split(ValidationError(errs).error, ',') == [InvalidBody] + Segments(errs)
    ensures Occurrences(ValidationError(errs).error, ',') == |errs|
  {
    var parts := [InvalidBody] + Segments(errs);
    assert "," == [','];
    assert ValidationError(errs).error == Join(parts, [',']);
    InvalidBodyHasNoComma();
    forall i | 0 <= i < |parts| ensures ',' !in parts[i] {
      if i == 0 {
        assert parts[i] == InvalidBody;
      } else {
        assert parts[i] == Segment(errs[i - 1]);
        SegmentHasNoComma(errs[i - 1]);
      }
    }
    SplitJoin(parts, ',');
    JoinSeparators(parts, ',');
  }

  /** The tag decides the sentence. */
  lemma SegmentByTag(field: string, tag: string)
    ensures Segment(FieldError("required", field)) == "field " + field + " is a required field"
    ensures Segment(FieldError("url", field)) == "field " + field + " is not in URL format"
    ensures tag != "required" && tag != "url" ==>
      Segment(FieldError(tag, field)) == "field " + field + " is not valid"
  {
  }

  /** A single field error is reported after the "invalid body" prefix and one comma. */
  lemma SingleErrorMessage(e: FieldError)
    ensures ValidationError([e]).error == InvalidBody + "," + Segment(e)
  {
    assert Segments([e]) == [Segment(e)];
    var parts := [InvalidBody] + [Segment(e)];
    assert parts[1..] == [Segment(e)];
    assert Join(parts, ",") == InvalidBody + "," + Segment(e);
  }

  /** The body a save request with a malformed url gets back. */
  lemma InvalidUrlMessage()
    ensures ValidationError([FieldError("url", "URL")])
         == Response(StatusError, InvalidBody + "," + "field URL is not in URL format")
  {
    SingleErrorMessage(FieldError("url", "URL"));
  }
}

=== FILE: sqlite.dfy ===
/** The SQLite-backed store (internal/storage/sqlite/sqlite.go) as a pure
    state machine.  The two tables are plain values: the `url` table is the
    sequence of its rows in rowid order, the `events` table the sequence of
    its rows in id order.  Every operation is a function from the state before
    to the result and the state after; the ones that only read return just the
    result.  Database I/O failures are a parameter of each operation. */
module Sqlite {
  import opened Storage
  import Domain
  import Decimal

  /** Largest rowid SQLite hands out (a signed 64-bit integer). */
  const MaxInt64: int := 0x7fff_ffff_ffff_ffff

  /** The `event_type` written by every save. */
  const UrlSavedType: string := "url_saved"

  /** A row of `url(id INTEGER PRIMARY KEY, alias TEXT NOT NULL UNIQUE, url TEXT NOT NULL)`. */
  datatype UrlRow = UrlRow(id: int, alias: string, url: string)

  /** The `status` column, restricted by its CHECK constraint to 'new' and 'done'. */
  datatype EventStatus = New | Done

  /** A row of the `events` table; `created_at` is a clock value and is not modelled. */
  datatype EventRow = EventRow(id: int, eventType: string, payload: string, status: EventStatus)

  datatype State = State(urls: seq<UrlRow>, events: seq<EventRow>)

  /** The result of a mutating operation together with the state it leaves. */
  datatype Step<+T> = Step(result: Result<T>, state: State)

  datatype Option<+T> = None | Some(value: T)

  /** A freshly created database: both tables exist and are empty. */
  const Empty: State := State([], [])

  // ---------------------------------------------------------------------------
  // Table invariants

  /** Rows are kept in rowid order, and rowids are distinct. */
  predicate IdsAscending(urls: seq<UrlRow>) {
    forall i, j :: 0 <= i < j < |urls| ==> urls[i].id < urls[j].id
  }

  /** The UNIQUE constraint on `alias`. */
  predicate AliasesUnique(urls: seq<UrlRow>) {
    forall i, j :: 0 <= i < j < |urls| ==> urls[i].alias != urls[j].alias
  }

  predicate IdsInRange(urls: seq<UrlRow>) {
    forall i :: 0 <= i < |urls| ==> 1 <= urls[i].id <= MaxInt64
  }

  /** AUTOINCREMENT ids start at 1 and, as events are never deleted and a
      rolled-back insert also rolls back the id counter, the i-th event has id i + 1. */
  predicate EventIdsSequential(events: seq<EventRow>) {
    forall i :: 0 <= i < |events| ==> events[i].id == i + 1
  }

  predicate EventIdsDistinct(events: seq<EventRow>) {
    forall i, j :: 0 <= i < j < |events| ==> events[i].id != events[j].id
  }

  predicate Valid(s: State) {
    && IdsAscending(s.urls)
    && AliasesUnique(s.urls)
    && IdsInRange(s.urls)
    && EventIdsSequential(s.events)
    && |s.events| <= MaxInt64
  }

  lemma EmptyIsValid()
    ensures Valid(Empty)
  {
  }

  /** The AUTOINCREMENT numbering never gives two events the same id. */
  lemma ValidEventIdsDistinct(s: State)
    requires Valid(s)
    ensures EventIdsDistinct(s.events)
  {
  }

  // ---------------------------------------------------------------------------
  // Queries over the url table

  predicate HasAlias(urls: seq<UrlRow>, alias: string) {
    exists r :: r in urls && r.alias == alias
  }

  /** `SELECT ... FROM url WHERE alias=?`: the row carrying `alias`, if any. */
  function Lookup(urls: seq<UrlRow>, alias: string): (r: Option<UrlRow>)
    ensures r.None? <==> !HasAlias(urls, alias)
    ensures r.Some? ==> r.value in urls && r.value.alias == alias
  {
    if |urls| == 0 then None
    else if urls[0].alias == alias then Some(urls[0])
    else Lookup(urls[1..], alias)
  }

  /** Under the UNIQUE constraint the row found is the only row with that alias. */
  lemma LookupFindsTheRow(urls: seq<UrlRow>, row: UrlRow)
    requires AliasesUnique(urls)
    requires row in urls
    ensures Lookup(urls, row.alias) == Some(row)
  {
  }

  /** Rowid of the last row, or 0 for an empty table. */
  function LastId(urls: seq<UrlRow>): (m: int)
    requires IdsAscending(urls) && IdsInRange(urls)
    ensures 0 <= m <= MaxInt64
    ensures forall r :: r in urls ==> r.id <= m
    ensures |urls| > 0 ==> urls[|urls| - 1].id == m
  {
    if |urls| == 0 then 0 else urls[|urls| - 1].id
  }

  /** `DELETE FROM url WHERE alias=?`: the table without the rows carrying `alias`. */
  function WithoutAlias(urls: seq<UrlRow>, alias: string): (kept: seq<UrlRow>)
    ensures forall r :: r in kept <==> r in urls && r.alias != alias
    ensures |kept| <= |urls|
    ensures |kept| == |urls| <==> !HasAlias(urls, alias)
  {
    if |urls| == 0 then []
    else if urls[0].alias == alias then WithoutAlias(urls[1..], alias)
    else [urls[0]] + WithoutAlias(urls[1..], alias)
  }

  /** A row placed in front of a table keeps its invariants when it comes
      before, and differs in alias from, every row already there. */
  lemma ConsKeepsInvariants(x: UrlRow, tail: seq<UrlRow>)
    requires IdsAscending(tail) && AliasesUnique(tail) && IdsInRange(tail)
    requires 1 <= x.id <= MaxInt64
    requires forall r :: r in tail ==> x.id < r.id && x.alias != r.alias
    ensures IdsAscending([x] + tail) && AliasesUnique([x] + tail) && IdsInRange([x] + tail)
  {
    var t := [x] + tail;
    forall i, j | 0 <= i < j < |t| ensures t[i].id < t[j].id && t[i].alias != t[j].alias {
      assert t[j] == tail[j - 1];
      if i > 0 {
        assert t[i] == tail[i - 1];
      } else {
        assert t[j] in tail;
      }
    }
  }

  lemma TailKeepsInvariants(urls: seq<UrlRow>)
    requires |urls| > 0
    requires IdsAscending(urls) && AliasesUnique(urls) && IdsInRange(urls)
    ensures IdsAscending(urls[1..]) && AliasesUnique(urls[1..]) && IdsInRange(urls[1..])
    ensures forall r :: r in urls[1..] ==> urls[0].id < r.id && urls[0].alias != r.alias
  {
    var rest := urls[1..];
    forall r | r in rest ensures urls[0].id < r.id && urls[0].alias != r.alias {
      var k :| 0 <= k < |rest| && rest[k] == r;
      assert urls[k + 1] == r;
    }
  }

  /** Deleting rows keeps the table's invariants. */
  lemma {:induction false} WithoutAliasKeepsInvariants(urls: seq<UrlRow>, alias: string)
    requires IdsAscending(urls) && AliasesUnique(urls) && IdsInRange(urls)
    ensures IdsAscending(WithoutAlias(urls, alias))
    ensures AliasesUnique(WithoutAlias(urls, alias))
    ensures IdsInRange(WithoutAlias(urls, alias))
    decreases |urls|
  {
    if |urls| > 0 {
      TailKeepsInvariants(urls);
      WithoutAliasKeepsInvariants(urls[1..], alias);
      if urls[0].alias != alias {
        ConsKeepsInvariants(urls[0], WithoutAlias(urls[1..], alias));
      }
    }
  }

  /** Deleting one alias does not change what any other alias finds. */
  lemma {:induction false} WithoutAliasKeepsOthers(urls: seq<UrlRow>, alias: string, other: string)
    requires other != alias
    ensures Lookup(WithoutAlias(urls, alias), other) == Lookup(urls, other)
    decreases |urls|
  {
    if |urls| > 0 {
      WithoutAliasKeepsOthers(urls[1..], alias, other);
      if urls[0].alias != alias {
        assert ([urls[0]] + WithoutAlias(urls[1..], alias))[1..] == WithoutAlias(urls[1..], alias);
      }
    }
  }

  /** Appending a row with a new alias does not change what any other alias finds. */
  lemma {:induction false} AppendKeepsOthers(urls: seq<UrlRow>, row: UrlRow, other: string)
    requires other != row.alias
    ensures Lookup(urls + [row], other) == Lookup(urls, other)
    decreases |urls|
  {
    if |urls| == 0 {
    } else {
      assert (urls + [row])[1..] == urls[1..] + [row];
      AppendKeepsOthers(urls[1..], row, other);
    }
  }

  lemma {:induction false} AppendIsFound(urls: seq<UrlRow>, row: UrlRow)
    requires !HasAlias(urls, row.alias)
    ensures Lookup(urls + [row], row.alias) == Some(row)
    decreases |urls|
  {
    if |urls| > 0 {
      assert urls[0] in urls;
      assert (urls + [row])[1..] == urls[1..] + [row];
      assert forall r :: r in urls[1..] ==> r in urls;
      AppendIsFound(urls[1..], row);
    }
  }

  // ---------------------------------------------------------------------------
  // Queries over the events table

  /** The event GetNewEvent hands out: the row's id, type and payload; only the
      status column is not selected. */
  function ToDomain(e: EventRow): (ev: Domain.Event)
    ensures EventRow(ev.id, ev.eventType, ev.payload, e.status) == e
  {
    Domain.Event(e.id, e.eventType, e.payload)
  }

  predicate HasNew(events: seq<EventRow>) {
    exists i :: 0 <= i < |events| && events[i].status == New
  }

  /** Some row with id `id` has status 'new'. */
  predicate IsNewId(events: seq<EventRow>, id: int) {
    exists i :: 0 <= i < |events| && events[i].id == id && events[i].status == New
  }

  /** `ev` is the domain view of a row whose status is 'new'. */
  predicate IsNewEvent(events: seq<EventRow>, ev: Domain.Event) {
    exists i :: 0 <= i < |events| && events[i].status == New && ToDomain(events[i]) == ev
  }

  /** Number of rows whose status is 'new'. */
  function CountNew(events: seq<EventRow>): (c: nat)
    ensures c <= |events|
    ensures c == 0 <==> !HasNew(events)
  {
    if |events| == 0 then 0
    else
      assert forall i :: 1 <= i < |events| ==> events[1..][i - 1] == events[i];
      (if events[0].status == New then 1 else 0) + CountNew(events[1..])
  }

  /** The row `SELECT ... WHERE status='new' LIMIT 1` returns.  The query has no
      ORDER BY, so which pending row comes back is up to the engine; the model
      takes the lowest id (SQLite's rowid-order scan), and no property stated
      about the store or the event sender depends on that choice. */
  function FirstNew(events: seq<EventRow>): (r: Option<nat>)
    ensures r.None? <==> !HasNew(events)
    ensures r.Some? ==> r.value < |events| && events[r.value].status == New
  {
    if |events| == 0 then None
    else if events[0].status == New then Some(0)
    else match FirstNew(events[1..])
      case None => None
      case Some(i) => Some(i + 1)
  }

  /** `UPDATE events SET status='done' WHERE id=?`. */
  function MarkDone(events: seq<EventRow>, id: int): (r: seq<EventRow>)
    ensures |r| == |events|
    ensures forall i :: 0 <= i < |r| ==>
      r[i] == if events[i].id == id then events[i].(status := Done) else events[i]
  {
    if |events| == 0 then []
    else
      var head := if events[0].id == id then events[0].(status := Done) else events[0];
      [head] + MarkDone(events[1..], id)
  }

  /** Marking `id` withdraws exactly `id` from the set of pending ids. */
  lemma MarkDonePendingIds(events: seq<EventRow>, id: int, k: int)
    ensures IsNewId(MarkDone(events, id), k) <==> IsNewId(events, k) && k != id
  {
    var r := MarkDone(events, id);
    if IsNewId(r, k) {
      var i :| 0 <= i < |r| && r[i].id == k && r[i].status == New;
      assert events[i].id == k;
    }
    if IsNewId(events, k) && k != id {
      var i :| 0 <= i < |events| && events[i].id == k && events[i].status == New;
      assert r[i] == events[i];
    }
  }

  lemma DistinctTail(events: seq<EventRow>)
    requires |events| > 0 && EventIdsDistinct(events)
    ensures EventIdsDistinct(events[1..])
    ensures !IsNewId(events[1..], events[0].id)
  {
    var rest := events[1..];
    forall i, j | 0 <= i < j < |rest| ensures rest[i].id != rest[j].id {
      assert rest[i] == events[i + 1] && rest[j] == events[j + 1];
    }
    forall i | 0 <= i < |rest| ensures rest[i].id != events[0].id {
      assert rest[i] == events[i + 1];
    }
  }

  lemma IsNewIdCons(events: seq<EventRow>, id: int)
    requires |events| > 0
    ensures IsNewId(events, id) <==>
      (events[0].id == id && events[0].status == New) || IsNewId(events[1..], id)
  {
    var rest := events[1..];
    if IsNewId(events, id) {
      var i :| 0 <= i < |events| && events[i].id == id && events[i].status == New;
      if i > 0 {
        assert rest[i - 1] == events[i];
      }
    }
    if IsNewId(rest, id) {
      var i :| 0 <= i < |rest| && rest[i].id == id && rest[i].status == New;
      assert events[i + 1] == rest[i];
    }
  }

  /** With distinct ids, marking a pending id lowers the pending count by
      exactly one, and marking anything else leaves it alone. */
  lemma {:induction false} CountNewMarkDone(events: seq<EventRow>, id: int)
    requires EventIdsDistinct(events)
    ensures CountNew(MarkDone(events, id)) == CountNew(events) - (if IsNewId(events, id) then 1 else 0)
    decreases |events|
  {
    if |events| > 0 {
      var rest := events[1..];
      DistinctTail(events);
      IsNewIdCons(events, id);
      CountNewMarkDone(rest, id);
      var r := MarkDone(events, id);
      assert r[1..] == MarkDone(rest, id);
    }
  }

  // ---------------------------------------------------------------------------
  // The event payload

  /** The payload SaveURL records: `{"id": "<id>", "url": "<url>", "alias": "<alias>"}`,
      with the id in decimal and url and alias inserted verbatim.  Its first
      field is the id, quoted. */
  function Payload(id: int, url: string, alias: string): (p: string)
    ensures id >= 0 ==> PayloadPrefix + Decimal.Format(id) + "\"" <= p
  {
    PayloadPrefix + Decimal.FormatInt(id) + PayloadTail(url, alias)
  }

  const PayloadPrefix: string := "{\"id\": \""

  function PayloadTail(url: string, alias: string): (t: string)
    ensures 0 < |t| && t[0] == '"'
  {
    "\", \"url\": \"" + url + "\", \"alias\": \"" + alias + "\"}"
  }

  /** Reads the id back out of a payload: the digits right after the prefix,
      which must be followed by a closing quote. */
  function PayloadId(p: string): Option<nat> {
    if |p| < |PayloadPrefix| || p[..|PayloadPrefix|] != PayloadPrefix then None
    else
      var rest := p[|PayloadPrefix|..];
      var k := Decimal.DigitRun(rest);
      if k == 0 || k == |rest| || rest[k] != '"' then None
      else Some(Decimal.Parse(rest[..k]))
  }

  /** The payload identifies the mapping it was written for, whatever the url
      and alias contain. */
  lemma PayloadIdRoundTrip(id: nat, url: string, alias: string)
    ensures PayloadId(Payload(id, url, alias)) == Some(id)
  {
    var d := Decimal.FormatInt(id);
    var t := PayloadTail(url, alias);
    var p := Payload(id, url, alias);
    assert p == PayloadPrefix + (d + t);
    assert p[..|PayloadPrefix|] == PayloadPrefix;
    assert p[|PayloadPrefix|..] == d + t;
    Decimal.DigitRunOfDigitsThen(d, t);
    assert (d + t)[..|d|] == d;
  }

  /** Payloads for different ids differ, whatever their urls and aliases. */
  lemma PayloadsDistinct(i: nat, j: nat, url: string, alias: string, url': string, alias': string)
    requires i != j
    ensures Payload(i, url, alias) != Payload(j, url', alias')
  {
    PayloadIdRoundTrip(i, url, alias);
    PayloadIdRoundTrip(j, url', alias');
  }

  // ---------------------------------------------------------------------------
  // Operations

  /** Where SaveURL's transaction can fail for reasons outside the store's
      contents: beginning the transaction, preparing the url insert, executing
      it with an error other than the UNIQUE violation, inserting the event
      (prepare or exec), or committing.  An `InsertFails` error (SQLITE_BUSY,
      an I/O error) is raised before SQLite looks at the UNIQUE index, so it
      wins over a taken alias. */
  datatype SaveFault =
    | NoFault
    | BeginFails
    | PrepareFails
    | InsertFails
    | EventInsertFails
    | CommitFails
  {
    /** The failure happens before the url insert reaches the UNIQUE check. */
    predicate BeforeUniqueCheck() {
      BeginFails? || PrepareFails? || InsertFails?
    }
  }

  /** Room for one more url row and one more event under the 64-bit id limit. */
  predicate HasRoom(s: State)
    requires Valid(s)
  {
    LastId(s.urls) < MaxInt64 && |s.events| < MaxInt64
  }

  /** `s'` is `s` after `url` was saved under `alias` with rowid `id`: the id
      is in range and above every existing rowid, the new row is appended to
      the url table, the alias finds it,
      every other alias finds what it found before, and exactly one `url_saved`
      event for that row is appended under the next event id. */
  ghost predicate SavedAs(s: State, s': State, id: int, url: string, alias: string) {
    && 1 <= id <= MaxInt64
    && (forall r :: r in s.urls ==> r.id < id)
    && s'.urls == s.urls + [UrlRow(id, alias, url)]
    && Lookup(s'.urls, alias) == Some(UrlRow(id, alias, url))
    && (forall b :: b != alias ==> Lookup(s'.urls, b) == Lookup(s.urls, b))
    && s'.events == s.events + [EventRow(|s.events| + 1, UrlSavedType, Payload(id, url, alias), New)]
  }

  /** The state a committed save leaves: the new row at the end of the url
      table, under the next rowid, and its `url_saved` event at the end of the
      events table. */
  function Committed(s: State, url: string, alias: string): (s': State)
    requires Valid(s) && HasRoom(s)
    requires !HasAlias(s.urls, alias)
    ensures Valid(s')
    ensures SavedAs(s, s', LastId(s.urls) + 1, url, alias)
  {
    var id := LastId(s.urls) + 1;
    var row := UrlRow(id, alias, url);
    AppendKeepsInvariants(s.urls, row);
    AppendIsFound(s.urls, row);
    AppendKeepsAllOthers(s.urls, row);
    State(s.urls + [row], s.events + [EventRow(|s.events| + 1, UrlSavedType, Payload(id, url, alias), New)])
  }

  /** A row appended under a fresh alias and a rowid above all others keeps
      the table's invariants. */
  lemma AppendKeepsInvariants(urls: seq<UrlRow>, row: UrlRow)
    requires IdsAscending(urls) && AliasesUnique(urls) && IdsInRange(urls)
    requires !HasAlias(urls, row.alias)
    requires 1 <= row.id <= MaxInt64 && forall r :: r in urls ==> r.id < row.id
    ensures IdsAscending(urls + [row]) && AliasesUnique(urls + [row]) && IdsInRange(urls + [row])
  {
    var u := urls + [row];
    forall i, j | 0 <= i < j < |u| ensures u[i].id < u[j].id && u[i].alias != u[j].alias {
      if j == |u| - 1 {
        assert u[i] in urls;
      }
    }
  }

  lemma AppendKeepsAllOthers(urls: seq<UrlRow>, row: UrlRow)
    ensures forall b :: b != row.alias ==> Lookup(urls + [row], b) == Lookup(urls, b)
  {
    forall b | b != row.alias ensures Lookup(urls + [row], b) == Lookup(urls, b) {
      AppendKeepsOthers(urls, row, b);
    }
  }

  /** SaveURL: in one transaction, insert the mapping, then the `url_saved`
      event whose payload names the new rowid; on any failure the transaction
      rolls back.  This is the behaviour the code evidently intends; what the
      code as written returns is modelled in SqliteAsWritten. */
  function SaveURL(s: State, url: string, alias: string, fault: SaveFault): (o: Step<int>)
    requires Valid(s)
    ensures Valid(o.state)
    ensures o.result.Err? ==> o.state == s
    ensures o.result.Err? ==> o.result.error == URLExists || o.result.error == DbFailure
    ensures o.result == Err(URLExists) <==> HasAlias(s.urls, alias) && !fault.BeforeUniqueCheck()
    ensures o.result.Ok? <==> fault == NoFault && !HasAlias(s.urls, alias) && HasRoom(s)
    ensures o.result.Ok? ==> SavedAs(s, o.state, o.result.value, url, alias)
  {
    if fault.BeforeUniqueCheck() then Step(Err(DbFailure), s)
    else if HasAlias(s.urls, alias) then Step(Err(URLExists), s)
    else InsertNew(s, url, alias, fault)
  }

  /** SaveURL once the url insert has passed the UNIQUE check. */
  function InsertNew(s: State, url: string, alias: string, fault: SaveFault): (o: Step<int>)
    requires Valid(s) && !HasAlias(s.urls, alias)
    ensures Valid(o.state)
    ensures o.result.Err? ==> o.result.error == DbFailure && o.state == s
    ensures o.result.Ok? <==> fault == NoFault && HasRoom(s)
    ensures o.result.Ok? ==> SavedAs(s, o.state, o.result.value, url, alias)
  {
    // SQLITE_FULL once the rowid or the event id would pass MaxInt64, a failed
    // event insert or a failed commit: each rolls the whole transaction back.
    if fault != NoFault || !HasRoom(s) then Step(Err(DbFailure), s)
    else Step(Ok(LastId(s.urls) + 1), Committed(s, url, alias))
  }

  /** GetURL: the url stored under `alias`. */
  function GetURL(s: State, alias: string, fault: bool): (r: Result<string>)
    requires Valid(s)
    ensures r.Err? ==> r.error == URLNotFound || r.error == DbFailure
    ensures r == Err(URLNotFound) <==> !fault && !HasAlias(s.urls, alias)
    ensures r.Ok? <==> !fault && HasAlias(s.urls, alias)
    ensures r.Ok? ==> UrlRow(Lookup(s.urls, alias).value.id, alias, r.value) in s.urls
  {
    if fault then Err(DbFailure)
    else match Lookup(s.urls, alias)
      case None => Err(URLNotFound)
      case Some(row) => Ok(row.url)
  }

  /** DeleteURL: remove the mapping for `alias`; zero affected rows is URLNotFound. */
  function DeleteURL(s: State, alias: string, fault: bool): (o: Step<()>)
    requires Valid(s)
    ensures Valid(o.state)
    ensures o.result.Err? ==> o.state == s
    ensures o.result.Err? ==> o.result.error == URLNotFound || o.result.error == DbFailure
    ensures o.result == Err(URLNotFound) <==> !fault && !HasAlias(s.urls, alias)
    ensures o.result.Ok? <==> !fault && HasAlias(s.urls, alias)
    ensures o.result.Ok? ==>
      && !HasAlias(o.state.urls, alias)
      && |o.state.urls| == |s.urls| - 1
      && (forall b :: b != alias ==> Lookup(o.state.urls, b) == Lookup(s.urls, b))
      && o.state.events == s.events
  {
    if fault then Step(Err(DbFailure), s)
    else
      var kept := WithoutAlias(s.urls, alias);
      var rowsAffected := |s.urls| - |kept|;
      if rowsAffected == 0 then Step(Err(URLNotFound), s)
      else
        WithoutAliasKeepsInvariants(s.urls, alias);
        assert forall b :: b != alias ==> Lookup(kept, b) == Lookup(s.urls, b) by {
          forall b | b != alias ensures Lookup(kept, b) == Lookup(s.urls, b) {
            WithoutAliasKeepsOthers(s.urls, alias, b);
          }
        }
        DeleteRemovesOneRow(s.urls, alias);
        Step(Ok(()), State(kept, s.events))
  }

  /** The UNIQUE constraint means a delete by alias affects at most one row. */
  lemma {:induction false} DeleteRemovesOneRow(urls: seq<UrlRow>, alias: string)
    requires AliasesUnique(urls)
    requires HasAlias(urls, alias)
    ensures |WithoutAlias(urls, alias)| == |urls| - 1
    decreases |urls|
  {
    var rest := urls[1..];
    if urls[0].alias == alias {
      assert !HasAlias(rest, alias) by {
        forall r | r in rest ensures r.alias != alias {
          var k :| 0 <= k < |rest| && rest[k] == r;
          assert urls[k + 1] == r;
        }
      }
    } else {
      assert AliasesUnique(rest) by {
        forall i, j | 0 <= i < j < |rest| ensures rest[i].alias != rest[j].alias {
          assert rest[i] == urls[i + 1] && rest[j] == urls[j + 1];
        }
      }
      var r :| r in urls && r.alias == alias;
      assert r in rest;
      DeleteRemovesOneRow(rest, alias);
    }
  }

  /** GetNewEvent: some pending event, or EventNotFound when none is pending. */
  function GetNewEvent(s: State, fault: bool): (r: Result<Domain.Event>)
    ensures r.Err? ==> r.error == EventNotFound || r.error == DbFailure
    ensures r == Err(EventNotFound) <==> !fault && !HasNew(s.events)
    ensures r.Ok? <==> !fault && HasNew(s.events)
    ensures r.Ok? ==> IsNewEvent(s.events, r.value) && IsNewId(s.events, r.value.id)
  {
    if fault then Err(DbFailure)
    else match FirstNew(s.events)
      case None => Err(EventNotFound)
      case Some(i) => Ok(ToDomain(s.events[i]))
  }

  /** MarkEventAsDone: flip the event with that id to 'done'.  An unknown id
      matches no row and is not an error. */
  function MarkEventAsDone(s: State, id: int, fault: bool): (o: Step<()>)
    ensures Valid(s) ==> Valid(o.state)
    ensures o.result.Ok? <==> !fault
    ensures o.result.Err? ==> o.result.error == DbFailure && o.state == s
    ensures o.state.urls == s.urls
    ensures |o.state.events| == |s.events|
    ensures o.result.Ok? ==> forall i :: 0 <= i < |s.events| ==>
      && o.state.events[i].id == s.events[i].id
      && o.state.events[i].eventType == s.events[i].eventType
      && o.state.events[i].payload == s.events[i].payload
      && o.state.events[i].status == (if s.events[i].id == id then Done else s.events[i].status)
    ensures o.result.Ok? ==> forall k :: IsNewId(o.state.events, k) <==> IsNewId(s.events, k) && k != id
    ensures o.result.Ok? && Valid(s) ==> CountNew(o.state.events) == CountNew(s.events) - (if IsNewId(s.events, id) then 1 else 0)
  {
    if fault then Step(Err(DbFailure), s)
    else
      var events := MarkDone(s.events, id);
      forall k ensures IsNewId(events, k) <==> IsNewId(s.events, k) && k != id {
        MarkDonePendingIds(s.events, id, k);
      }
      assert Valid(s) ==> CountNew(events) == CountNew(s.events) - (if IsNewId(s.events, id) then 1 else 0) by {
        if Valid(s) {
          ValidEventIdsDistinct(s);
          CountNewMarkDone(s.events, id);
        }
      }
      Step(Ok(()), State(s.urls, events))
  }
}

=== FILE: sqlite_as_written.dfy ===
/** SaveURL exactly as internal/storage/sqlite/sqlite.go writes it, including
    its deferred closure, which rolls back when `err` is set and then calls
    `tx.Commit()` unconditionally.  Every path that reaches the closure has
    already finished the transaction (explicit commit, or the closure's own
    rollback), so that second commit always fails with database/sql's
    ErrTxDone and overwrites the error SaveURL was about to return.  The
    store's contents end up as Sqlite.SaveURL describes; only what the caller
    is told differs. */
module SqliteAsWritten {
  import opened Storage
  import opened Sqlite

  /** database/sql's view of a transaction. */
  datatype Tx = Open | Finished

  /** `tx.Commit()` / `tx.Rollback()`: the first call finishes the
      transaction, any later call fails with ErrTxDone. */
  function TxEnd(tx: Tx): (r: Option<StorageError>)
  {
    if tx == Open then None else Some(TxDone)
  }

  /** Where the body of SaveURL leaves off: the values of the named results
      `id` and `err` at its return statement, the transaction and the store at
      that moment, or a nil-interface panic. */
  datatype BodyExit =
    | Return(id: int, err: Option<StorageError>, tx: Tx, state: State)
    | NilResult(state: State)

  /** The body of SaveURL after a successful Begin (lines 77-101). */
  function Body(s: State, url: string, alias: string, fault: SaveFault): (b: BodyExit)
    requires Valid(s)
    requires fault != BeginFails
    ensures b.Return? && b.err.None? ==> b.tx == Finished
    ensures b.state == SaveURL(s, url, alias, fault).state
    ensures b.Return? && b.err.None? <==> SaveURL(s, url, alias, fault).result.Ok?
    ensures b.Return? && b.err.None? ==> b.id == SaveURL(s, url, alias, fault).result.value
    ensures b.Return? && b.err == Some(URLExists) <==> SaveURL(s, url, alias, fault).result == Err(URLExists)
  {
    if fault == PrepareFails then Return(0, Some(DbFailure), Open, s)
    // An insert error other than the UNIQUE violation, whether or not the
    // alias is taken, falls through the `if` at line 82 to
    // `res.LastInsertId()` with a nil `res`.
    else if fault == InsertFails then NilResult(s)
    else if HasAlias(s.urls, alias) then Return(0, Some(URLExists), Open, s)
    else if LastId(s.urls) == MaxInt64 then NilResult(s)
    else if fault == EventInsertFails || |s.events| == MaxInt64 then Return(0, Some(DbFailure), Open, s)
    // `tx.Commit()` marks the transaction finished before the driver commits.
    else if fault == CommitFails then Return(0, Some(DbFailure), Finished, s)
    else Return(LastId(s.urls) + 1, None, Finished, Committed(s, url, alias))
  }

  /** The deferred closure (lines 67-75): the error SaveURL finally returns. */
  function Deferred(err: Option<StorageError>, tx: Tx): (r: Option<StorageError>)
    ensures r == None <==> err == None && tx == Open
    ensures r != None ==> r == Some(TxDone)
  {
    var afterRollback := if err.Some? then Finished else tx;
    var commitErr := TxEnd(afterRollback);
    if commitErr.Some? then commitErr else err
  }

  datatype Outcome = Returned(id: int, err: Option<StorageError>) | Panicked

  datatype Written = Written(outcome: Outcome, state: State)

  /** SaveURL as written: after a successful Begin it never returns a nil
      error and never lets ErrURLExists through, although the store changes
      exactly as the intended SaveURL says. */
  function SaveURLAsWritten(s: State, url: string, alias: string, fault: SaveFault): (w: Written)
    requires Valid(s)
    ensures w.state == SaveURL(s, url, alias, fault).state
    ensures fault == BeginFails ==> w.outcome == Returned(0, Some(DbFailure))
    ensures fault != BeginFails && w.outcome.Returned? ==> w.outcome.err == Some(TxDone)
    ensures w.outcome.Panicked? <==>
      fault == InsertFails
      || (!fault.BeforeUniqueCheck() && !HasAlias(s.urls, alias) && LastId(s.urls) == MaxInt64)
  {
    if fault == BeginFails then Written(Returned(0, Some(DbFailure)), s)
    else match Body(s, url, alias, fault)
      case NilResult(st) => Written(Panicked, st)
      case Return(id, err, tx, st) => Written(Returned(id, Deferred(err, tx)), st)
  }

  /** Saving "https://example.com" under "abc" into an empty store commits the
      mapping and its event, yet the caller receives an error. */
  lemma SuccessReportsTxDone()
    ensures SaveURL(Empty, "https://example.com", "abc", NoFault).result == Ok(1)
    ensures SaveURLAsWritten(Empty, "https://example.com", "abc", NoFault).outcome
         == Returned(1, Some(TxDone))
  {
    assert Lookup([UrlRow(1, "abc", "https://example.com")], "abc").Some?;
  }

  /** Saving an alias that is already present: the intended result is
      ErrURLExists, the written code reports ErrTxDone instead, so the handler
      cannot tell a duplicate alias from a database failure. */
  lemma DuplicateReportsTxDone(url: string)
    ensures var s := State([UrlRow(1, "abc", "https://example.com")], []);
      && Valid(s)
      && SaveURL(s, url, "abc", NoFault).result == Err(URLExists)
      && SaveURLAsWritten(s, url, "abc", NoFault).outcome == Returned(0, Some(TxDone))
  {
    var s := State([UrlRow(1, "abc", "https://example.com")], []);
    assert s.urls[0] in s.urls;
  }

  /** A url insert failing for any reason other than the UNIQUE constraint
      makes the written code call a method on a nil result, on an empty store
      and equally when the alias is already taken. */
  lemma OtherInsertErrorPanics(url: string, alias: string)
    ensures SaveURL(Empty, url, alias, InsertFails).result == Err(DbFailure)
    ensures SaveURLAsWritten(Empty, url, alias, InsertFails).outcome == Panicked
    ensures var s := State([UrlRow(1, alias, "https://example.com")], []);
      && Valid(s)
      && SaveURL(s, url, alias, InsertFails).result == Err(DbFailure)
      && SaveURLAsWritten(s, url, alias, InsertFails).outcome == Panicked
  {
  }
}

=== FILE: storage.dfy ===
/** The storage layer's error sentinels and the result type every store
    operation returns (internal/storage/storage.go). */
module Storage {

  /** The three sentinels of the storage package, plus the failures that come
      from the database driver: `DbFailure` stands for any I/O or driver error
      (prepare, exec, begin or commit failing), and `TxDone` is the
      "transaction has already been committed or rolled back" error of the
      database/sql package. */
  datatype StorageError =
    | URLNotFound     // "url not found"
    | URLExists       // "url exists"
    | EventNotFound   // "no new events"
    | DbFailure
    | TxDone

  /** A Go `(value, error)` pair where exactly one side is meaningful. */
  datatype Result<+T> = Ok(value: T) | Err(error: StorageError)
}

=== FILE: store_properties.dfy ===
/** Properties of the store that relate several operations, or hold of every
    operation: the registry contract seen from its callers. */
module StoreProperties {
  import opened Storage
  import opened Sqlite

  /** A successful save followed by a lookup of the same alias yields exactly
      the saved url. */
  lemma SaveThenGet(s: State, url: string, alias: string, fault: SaveFault, getFault: bool)
    requires Valid(s)
    requires SaveURL(s, url, alias, fault).result.Ok?
    ensures GetURL(SaveURL(s, url, alias, fault).state, alias, getFault)
         == (if getFault then Err(DbFailure) else Ok(url))
  {
  }

  /** Saving the same alias twice: the second save is rejected with URLExists
      and changes neither table. */
  lemma SaveTwiceRejected(s: State, url1: string, url2: string, alias: string)
    requires Valid(s)
    requires SaveURL(s, url1, alias, NoFault).result.Ok?
    ensures var s1 := SaveURL(s, url1, alias, NoFault).state;
      && SaveURL(s1, url2, alias, NoFault) == Step(Err(URLExists), s1)
      && GetURL(s1, alias, false) == Ok(url1)
  {
    var s1 := SaveURL(s, url1, alias, NoFault).state;
    assert Lookup(s1.urls, alias).Some?;
  }

  /** Two saves under different aliases both succeed when nothing fails and
      ids remain, and each alias then finds its own url. */
  lemma SaveDistinctAliases(s: State, urlA: string, a: string, urlB: string, b: string)
    requires Valid(s) && HasRoom(s)
    requires a != b && !HasAlias(s.urls, a) && !HasAlias(s.urls, b)
    requires LastId(s.urls) + 1 < MaxInt64 && |s.events| + 1 < MaxInt64
    ensures var o1 := SaveURL(s, urlA, a, NoFault);
      var o2 := SaveURL(o1.state, urlB, b, NoFault);
      && o1.result.Ok? && o2.result.Ok?
      && o1.result.value < o2.result.value
      && GetURL(o2.state, a, false) == Ok(urlA)
      && GetURL(o2.state, b, false) == Ok(urlB)
  {
    var o1 := SaveURL(s, urlA, a, NoFault);
    assert Lookup(o1.state.urls, b) == None;
    assert LastId(o1.state.urls) == o1.result.value;
  }

  /** Both or neither: a save adds its mapping exactly when it adds an event. */
  lemma SaveIsAtomic(s: State, url: string, alias: string, fault: SaveFault)
    requires Valid(s)
    ensures var s' := SaveURL(s, url, alias, fault).state;
      (!HasAlias(s.urls, alias) && HasAlias(s'.urls, alias)) <==> |s'.events| == |s.events| + 1
    ensures var s' := SaveURL(s, url, alias, fault).state;
      |s'.events| == |s.events| || |s'.events| == |s.events| + 1
  {
    var o := SaveURL(s, url, alias, fault);
    if o.result.Ok? {
      assert Lookup(o.state.urls, alias).Some?;
    }
  }

  /** Every mapping has the `url_saved` event that was written with it. */
  predicate Paired(s: State) {
    forall r :: r in s.urls ==> HasSavedEvent(s.events, r)
  }

  /** Some event records the save of row `r`. */
  predicate HasSavedEvent(events: seq<EventRow>, r: UrlRow) {
    exists i :: 0 <= i < |events| && events[i].eventType == UrlSavedType
      && events[i].payload == Payload(r.id, r.url, r.alias)
  }

  lemma EmptyIsPaired()
    ensures Paired(Empty)
  {
  }

  /** Saving, deleting and marking all keep every mapping paired with its
      event: a mapping never commits without its event, deleting a mapping
      leaves its event behind, and marking changes only a status. */
  lemma SaveKeepsPaired(s: State, url: string, alias: string, fault: SaveFault)
    requires Valid(s) && Paired(s)
    ensures Paired(SaveURL(s, url, alias, fault).state)
  {
    var o := SaveURL(s, url, alias, fault);
    if o.result.Ok? {
      var s' := o.state;
      var row := UrlRow(o.result.value, alias, url);
      forall r | r in s'.urls ensures r in s.urls || r == row {
        LookupFindsTheRow(s'.urls, r);
        if r.alias != alias {
          assert Lookup(s.urls, r.alias) == Some(r);
        }
      }
      PairedAfterAppend(s, s', row);
    }
  }

  /** A new mapping committed together with its event keeps the store paired. */
  lemma PairedAfterAppend(s: State, s': State, row: UrlRow)
    requires Paired(s)
    requires forall r :: r in s'.urls ==> r in s.urls || r == row
    requires s'.events == s.events + [EventRow(|s.events| + 1, UrlSavedType, Payload(row.id, row.url, row.alias), New)]
    ensures Paired(s')
  {
    forall r | r in s'.urls ensures HasSavedEvent(s'.events, r) {
      if r == row {
        assert s'.events[|s.events|].payload == Payload(r.id, r.url, r.alias);
      } else {
        var i :| 0 <= i < |s.events| && s.events[i].eventType == UrlSavedType
          && s.events[i].payload == Payload(r.id, r.url, r.alias);
        assert s'.events[i] == s.events[i];
      }
    }
  }

  lemma DeleteKeepsPaired(s: State, alias: string, fault: bool)
    requires Valid(s) && Paired(s)
    ensures Paired(DeleteURL(s, alias, fault).state)
  {
    var o := DeleteURL(s, alias, fault);
    if o.result.Ok? {
      forall r | r in o.state.urls ensures r in s.urls {
        LookupFindsTheRow(o.state.urls, r);
      }
    }
  }

  lemma MarkKeepsPaired(s: State, id: int, fault: bool)
    requires Valid(s) && Paired(s)
    ensures Paired(MarkEventAsDone(s, id, fault).state)
  {
    var o := MarkEventAsDone(s, id, fault);
    forall r | r in o.state.urls ensures HasSavedEvent(o.state.events, r) {
      var i :| 0 <= i < |s.events| && s.events[i].eventType == UrlSavedType
        && s.events[i].payload == Payload(r.id, r.url, r.alias);
      assert o.state.events[i].payload == s.events[i].payload;
    }
  }

  /** After a successful delete the alias is gone: a lookup reports URLNotFound,
      and a second delete does too. */
  lemma DeleteThenGet(s: State, alias: string)
    requires Valid(s)
    requires DeleteURL(s, alias, false).result.Ok?
    ensures var s' := DeleteURL(s, alias, false).state;
      && GetURL(s', alias, false) == Err(URLNotFound)
      && DeleteURL(s', alias, false) == Step(Err(URLNotFound), s')
  {
  }

  /** Marking is idempotent. */
  lemma MarkIdempotent(s: State, id: int)
    requires Valid(s)
    ensures var s1 := MarkEventAsDone(s, id, false).state;
      MarkEventAsDone(s1, id, false).state == s1
  {
    var s1 := MarkEventAsDone(s, id, false).state;
    var s2 := MarkEventAsDone(s1, id, false).state;
    assert s2.events == s1.events;
  }

  /** An id no event carries matches no row: success, and nothing changes. */
  lemma MarkUnknownIsNoop(s: State, id: int)
    requires Valid(s)
    requires forall i :: 0 <= i < |s.events| ==> s.events[i].id != id
    ensures MarkEventAsDone(s, id, false) == Step(Ok(()), s)
  {
    var s1 := MarkEventAsDone(s, id, false).state;
    assert s1.events == s.events;
  }

  /** No operation turns a 'done' event back into 'new' or moves it. */
  lemma DoneStaysDone(s: State, i: nat, url: string, alias: string, saveFault: SaveFault, id: int, fault: bool)
    requires Valid(s)
    requires i < |s.events| && s.events[i].status == Done
    ensures var e := SaveURL(s, url, alias, saveFault).state.events;
      i < |e| && e[i] == s.events[i]
    ensures var e := DeleteURL(s, alias, fault).state.events;
      i < |e| && e[i] == s.events[i]
    ensures var e := MarkEventAsDone(s, id, fault).state.events;
      i < |e| && e[i] == s.events[i]
  {
  }
}
